=== FILE: README.md ===
# Forge spaces: a Dafny model of the space controller

A *space* is an optional sub-application that an extension contributes to the
host web UI. `modules_forge/forge_space.py` discovers the extensions that
declare themselves as spaces. It groups them by tag and gives each one a
controller (`ForgeSpace`) with four buttons: Install, Uninstall, Launch and
Terminate. Launch runs the space's own gradio server on a background worker
thread, on the first free port.

This project models the decision logic of that file as pure Dafny functions
over immutable data, and proves what the code promises about it:

- `label.dfy` (`Label`): `build_html`. It has three markup forms, and a parser
  reads each form back. The round trip shows that the forms are mutually
  exclusive and that the running form carries exactly the url.
- `ports.dfy` (`Ports`): `find_free_port`. Host and port are defaulted, then an
  ascending probe runs over an abstract bind test `canBind(host, port)`. The
  result is the first port at or above the start that binds.
- `space.dfy` (`Space`): the controller's state. `installed` stands for the
  mirror directory existing; `isRunning` and the worker handle
  (`gradio_metas`) are the object's fields. The module holds the five-way
  `refresh_gradio` and the `install`, `uninstall`, `run` and `terminate`
  transitions. It also holds the two halves of `gradio_worker`: publishing the
  launch handle, and clearing it once the stop flag is seen. The busy-wait of
  `run` becomes a `Completion`: either the operation returns with its
  postcondition holding, or it `Hangs`. `terminate` always returns in the
  model, because the worker that published the handle is assumed to still be
  polling (see "Left out").
- `lifecycle.dfy` (`Lifecycle`): the controller as a user drives it. A click
  reaches its operation only while the current refresh shows that button
  interactive. Under that gate every session keeps the controller
  `Consistent`, and every consistent state refreshes to a row of the
  three-row enablement table.
- `registry.dfy` (`Registry`): the grouping loop of `main_entry`. It is proved
  equal to a reference grouping: tags in order of first appearance, and each
  tag's extensions in input order. The groups together are a permutation of
  the kept extensions. One configuration is built per kept extension.
- `wrappers.dfy` (`Wrappers`, `Py`): `Option` and `Result`, the Python values
  the code inspects (only `isinstance(x, str)` matters), and the exceptions
  the modelled code raises.

Points where the code behaves otherwise than a first reading suggests:

- The port probe is not unbounded. `socket.bind` raises `OverflowError` for a
  port outside 0..65535, and the loop catches only `OSError`. For a host that
  resolves, the search therefore ends with that error once it passes port
  65535, or at once for a negative start port. For a host that does not
  resolve, every bind fails with `gaierror` (an `OSError`, so it is caught)
  before the port range is checked. The loop then runs until the port no longer
  fits a C `int`, and again ends with `OverflowError`. In both cases no port
  binds and the result is `OverflowError`. `Ports.Probe` models this result,
  though not the number of probes, so it needs no precondition.
- The label shows the running form for any `str` url, and the ready form for
  every non-`str` url, not only for an absent one.
- `refresh_gradio` is not free of failure. A tuple handle with fewer than two
  items makes `self.gradio_metas[1]` raise `IndexError`.
- The source methods do not check the button gate. For example, a launch
  without the mirror directory hangs, because the worker dies in `os.chdir`
  (`Lifecycle.LaunchWithoutMirrorHangs`).
- "Not installed but running" is reachable. `refresh_gradio` re-reads the
  disk on every call, so deleting the mirror by hand while a space runs gets
  there. Refresh then enables none of the four buttons, and the server can no
  longer be terminated from the UI (`Lifecycle.DeletedMirrorStrandsRunningSpace`).
  The click model keeps `Consistent` only because there the mirror changes
  through Install and Uninstall alone.

## Model

| member | source | states |
|---|---|---|
| Label.BuildHtml | modules_forge/forge_space.py:19-26 | Every label starts with the title div. Not installed gives the not-installed markup whatever the url. Installed with a `str` url reads back as the running form with exactly that url. Installed with any other url reads back as ready to launch. |
| Label.ParseRender | modules_forge/forge_space.py:19-26 | Reading a label back, given its title, recovers the form it was built from, for every title and every url. |
| Label.RenderInjective | modules_forge/forge_space.py:19-26 | The three forms are mutually exclusive: two labels for one title are equal only when their forms (and urls) are equal. |
| Ports.Probe | modules_forge/forge_space.py:38-44 | Success returns the first port at or above the probe start that binds, and it is at most 65535. Failure is `OverflowError`, and then no port from the start up to 65535 binds (or the start is negative). |
| Ports.FindFreePort | modules_forge/forge_space.py:29-44 | The start defaults to 7860 and the host to 127.0.0.1. The result is the first bindable port at or above the start. It fails exactly when the start is negative or no port between the start and 65535 binds. |
| Ports.FirstFreeUnique | modules_forge/forge_space.py:38-44 | The first free port is unique, so the search result is determined by the bind test. |
| Space.InitialLabel | modules_forge/forge_space.py:58 | The constructor's label is the not-installed form, whatever is on disk. |
| Space.LabelUrl | modules_forge/forge_space.py:85-88 | A tuple handle with at least two items passes its element 1, whatever it is. A shorter tuple raises `IndexError`. Any other handle, including none, gives `None`. |
| Space.Refresh | modules_forge/forge_space.py:80-94 | Refresh fails exactly for a too-short tuple handle. Otherwise install and uninstall are never both enabled, and neither are launch and terminate. Uninstall equals launch. The label is the not-installed form exactly when not installed, and the running form only with a tuple handle whose element 1 is that url. |
| Space.FlagsAgreeWithLabel | modules_forge/forge_space.py:83-93 | In every state whose refresh succeeds, Install is enabled only beside the not-installed label. Uninstall, Launch and Terminate are never enabled beside it. |
| Space.NoHandleNeverRunning | modules_forge/forge_space.py:85-88 | Without a tuple handle, refresh succeeds and the label is never the running form. |
| Space.Install | modules_forge/forge_space.py:96-118 | Afterwards the mirror directory exists, and the flag and handle are unchanged. The directory is created first and only then. With no repository id nothing else happens. With one, there is exactly one forced download into the mirror. The requirements install follows it, once, exactly when the requirements file exists. Install never deletes anything. |
| Space.InstallIdempotent | modules_forge/forge_space.py:96-118 | Installing a second time ends in the same state and asks for the same effects. |
| Space.Uninstall | modules_forge/forge_space.py:120-127 | Uninstall deletes the mirror tree best-effort. It never makes a space installed. When every entry can be deleted the space is not installed afterwards. When some entry cannot be deleted, the directory stays and installation is unchanged. The flag and handle are unchanged. |
| Space.WorkerStart | modules_forge/forge_space.py:142-172 | Without the mirror directory the worker raises `FileNotFoundError`. When the entry file fails it raises an error. Otherwise it serves exactly when some port is free. It then serves on the first free port from the configured preferred port, with the handle the launcher returned for that port. |
| Space.Run | modules_forge/forge_space.py:135-140 | When run returns, the space is running with a handle present. When the worker served, that handle is the one it launched. After a worker crash, the handle is the one present before the call. Run hangs exactly when no handle is present after the worker's step: the worker published none, and no earlier handle remains. |
| Space.WorkerStop | modules_forge/forge_space.py:184-188 | The worker's tail never changes the installation or the running flag. It changes the handle only once `is_running` is false, and then the handle is gone. |
| Space.Terminate | modules_forge/forge_space.py:129-133 | When terminate returns, the space is not running, the handle is gone, and installation is unchanged. |
| Lifecycle.RefreshFollowsTable | modules_forge/forge_space.py:80-94 | Every consistent state refreshes to its row of the three-row table: not installed, ready to launch, or running with the handle's url. |
| Lifecycle.ExactlyOneOffered | modules_forge/forge_space.py:90-93 | In a consistent state exactly one of Install, Launch and Terminate is enabled. |
| Lifecycle.StepPreservesConsistent | modules_forge/forge_space.py:90-140 | A click whose button is interactive keeps the state consistent: a handle exactly while running, running only when installed, and a url in the handle. This holds when the launcher returns gradio's tuple, and also when it fails and leaves the handle `None`. |
| Lifecycle.SessionPreservesConsistent | modules_forge/forge_space.py:72-140 | Every completed sequence of gated clicks from a consistent state ends consistent. |
| Lifecycle.HandleLeavesOnlyWithStop | modules_forge/forge_space.py:129-140 | No click takes the worker handle away from a space without also stopping it. The handle goes only through Terminate, whose worker clears it after seeing `is_running` false (lines 184-188). |
| Lifecycle.DeletedMirrorStrandsRunningSpace | modules_forge/forge_space.py:83-93 | If the mirror of a running space is deleted outside the controller, refresh succeeds with all four buttons disabled. Every click is then ignored, and the state is no longer consistent. |
| Lifecycle.LaunchWithoutMirrorHangs | modules_forge/forge_space.py:135-146 | Launching a space that has no mirror directory and no handle blocks forever. |
| Lifecycle.InstallClick | modules_forge/forge_space.py:96-100 | Install on a space that is not installed leaves it installed and idle. |
| Lifecycle.LaunchClick | modules_forge/forge_space.py:135-172 | Launch on an installed idle space whose entry file loads, with a free port, leaves it running and consistent. |
| Lifecycle.TerminateClick | modules_forge/forge_space.py:129-133 | Terminate on a running consistent space leaves it installed and idle. |
| Lifecycle.UninstallClick | modules_forge/forge_space.py:120-127 | Uninstall on an idle space whose files can all be deleted leaves it not installed. |
| Lifecycle.FullCycle | modules_forge/forge_space.py:72-140 | Install then launch reaches the running row. Terminate then uninstall brings the controller back to its not-installed start. |
| Registry.IndexOfTag | modules_forge/forge_space.py:203-204 | The dict position of a tag: its first index, or the dict length when the tag is new. |
| Registry.GroupByTag | modules_forge/forge_space.py:199-206 | The loop raises `KeyError('tag')` exactly when some kept extension has no tag. Otherwise it returns the reference grouping. |
| Registry.TagsDistinct | modules_forge/forge_space.py:203-204 | No tag is listed twice. |
| Registry.WithTagEmptyIff | modules_forge/forge_space.py:199-206 | A tag has a group exactly when some kept extension carries it. |
| Registry.WithTagCarriesTag | modules_forge/forge_space.py:200-206 | Only enabled space extensions with that tag are listed under a tag. |
| Registry.GroupingSnoc | modules_forge/forge_space.py:199-206 | One iteration of the loop turns the grouping of a prefix into the grouping of the next prefix. |
| Registry.GroupingPermutesKept | modules_forge/forge_space.py:199-213 | The groups together hold each kept extension exactly as often as the input does: they permute the kept list. |
| Registry.GroupsAreTagged | modules_forge/forge_space.py:199-206 | Groups are non-empty and have distinct tags. Every member is a kept extension with its group's tag. |
| Registry.ConfigOf | modules_forge/forge_space.py:212 | The constructor accepts the metadata exactly when it has a title and does not rebind `root_path` or `self`. The root path is the extension path. The repository type defaults to `space`. |
| Registry.ConfigsOf | modules_forge/forge_space.py:208-213 | Building configurations succeeds exactly when every constructor call succeeds, and then yields one configuration per extension, in order. |
| Registry.MainEntry | modules_forge/forge_space.py:192-215 | An untagged kept extension raises `KeyError('tag')`. Otherwise one controller is built per kept extension, group by group, so their number equals the number of kept extensions. |

## Left out

- gradio component construction, event wiring and `gr.update` objects (lines 58-76, 209-211): UI framework code. Only the returned values are modelled; a `View` holds the label and the four interactive flags.
- `snapshot_download` and `run_pip`: foreign network and process calls. They appear only as `Effect` values; their failures (which propagate to the UI) are not modelled.
- The filesystem: `os.makedirs`, `os.path.exists`, `shutil.rmtree` and its logging error callback. They are reduced to the `installed` flag, and uninstall to a `removedAll` oracle. `realpath`/`abspath` canonicalisation of the requirements path is not modelled.
- Real socket binding: replaced by the `canBind` oracle plus the 0..65535 port range.
- Space.Terminate: always completes. In the source, `terminate` waits forever if the worker died after publishing its handle, for example in the clean-up of lines 174-182. The model has no such worker state, because those clean-up failures are not modelled.
- The mirror directory is assumed to change only through Install and Uninstall in the click model (`Lifecycle.Session`). `Consistent`'s "running implies installed" depends on that. An outside deletion is modelled only by `Lifecycle.MirrorDeletedOutside`, and its stuck state by `Lifecycle.DeletedMirrorStrandsRunningSpace`.
- Space.WorkerStart: the launcher is a total function, so a `demo.launch` that raises is written only as a launcher returning no handle. That overwrites an earlier handle, which the source would keep because it never assigns. Under the button gate the handle is already `None` at launch, so the two agree there.
- Threads and `time.sleep` polling: run and terminate are atomic sequential transitions. Their waits become "completes with the postcondition, or hangs". Interleavings, such as a second run racing the first, are not modelled.
- Worker internals (lines 143-182): `spaces.unload_module`, `sys.modules`/`sys.path`/cwd changes, importing `forge_app.py` under a uuid name, `memory_management.unload_all_models`, the `demo.launch` arguments other than host and port, and `demo.close`. The entry file is a `entryLoads` oracle and the launcher a function oracle. Failures in the clean-up after the launch are not modelled.
- `print` logging.
- Explicit `None` values in the space metadata dict are not modelled: values are strings, and only absent keys default. In the source, `title: None` still constructs a space, `tag: None` groups under `None`, and `repo_type: None` keeps `None` rather than `'space'`.
- Registry.MainEntry: the global `spaces` list, which is left partly filled when a constructor call fails midway, is not modelled; the model returns only the error.

=== FILE: label.dfy ===
/** The status label of a space (`build_html`): three mutually exclusive markup forms. */
module Label {
  import opened Wrappers
  import opened Py

  /** The three forms the label can take. */
  datatype Status = NotInstalled | ReadyToLaunch | Running(url: string)

  const NOT_INSTALLED := "<div style=\"color: grey;\">Not Installed</div>"
  const READY := "<div style=\"color: grey;\">Installed, Ready to Launch</div>"
  const RUNNING_OPEN := "<div style=\"color: green;\">Currently Running: <a href=\""
  const RUNNING_MID := "\" style=\"color: blue;\" target=\"_blank\">"
  const RUNNING_CLOSE := "</a></div>"

  /** The first `div`, which every form starts with. */
  function TitleDiv(title: string): string {
    "<div>" + title + "</div>"
  }

  /** The second `div`, which tells the forms apart; the url goes into both the link and its text. */
  function StatusDiv(st: Status): string {
    match st
    case NotInstalled => NOT_INSTALLED
    case ReadyToLaunch => READY
    case Running(url) => RUNNING_OPEN + url + RUNNING_MID + url + RUNNING_CLOSE
  }

  function Render(title: string, st: Status): string {
    TitleDiv(title) + StatusDiv(st)
  }

  /** Which form `build_html` picks: installation first, then whether `url` is a `str`. */
  function StatusOf(installed: bool, url: Value): Status {
    if !installed then NotInstalled
    else if url.Str? then Running(url.s)
    else ReadyToLaunch
  }

  /** `build_html(title, installed, url)`. */
  function BuildHtml(title: string, installed: bool, url: Value): (html: string)
    ensures TitleDiv(title) <= html
    ensures !installed ==> html == TitleDiv(title) + NOT_INSTALLED
    ensures !installed ==> Parse(title, html) == Some(NotInstalled)
    ensures installed && url.Str? ==> Parse(title, html) == Some(Running(url.s))
    ensures installed && !url.Str? ==> Parse(title, html) == Some(ReadyToLaunch)
  {
    var st := StatusOf(installed, url);
    ParseRender(title, st);
    Render(title, st)
  }

  /** Reads a label back, given the title it was built for; `None` for markup of no form. */
  function Parse(title: string, html: string): Option<Status> {
    var head := TitleDiv(title);
    if head <= html then ParseStatusDiv(html[|head|..]) else None
  }

  function ParseStatusDiv(tail: string): Option<Status> {
    if tail == NOT_INSTALLED then Some(NotInstalled)
    else if tail == READY then Some(ReadyToLaunch)
    else if |tail| >= |RUNNING_OPEN| + |RUNNING_MID| + |RUNNING_CLOSE|
      && RUNNING_OPEN <= tail
      && tail[|tail| - |RUNNING_CLOSE|..] == RUNNING_CLOSE
    then
      var body := tail[|RUNNING_OPEN|..|tail| - |RUNNING_CLOSE|];
      var url := body[..(|body| - |RUNNING_MID|) / 2];
      if body == url + RUNNING_MID + url then Some(Running(url)) else None
    else None
  }

  /** The status div of every form reads back as that form. */
  lemma ParseStatusDivRoundTrip(st: Status)
    ensures ParseStatusDiv(StatusDiv(st)) == Some(st)
  {
    if st.Running? {
      var u := st.url;
      var tail := StatusDiv(st);
      assert |tail| == |RUNNING_OPEN| + 2 * |u| + |RUNNING_MID| + |RUNNING_CLOSE|;
      assert tail != NOT_INSTALLED && tail != READY by {
        assert |tail| > |READY| && |tail| > |NOT_INSTALLED|;
      }
      assert tail[..|RUNNING_OPEN|] == RUNNING_OPEN;
      assert tail[|tail| - |RUNNING_CLOSE|..] == RUNNING_CLOSE;
      var body := tail[|RUNNING_OPEN|..|tail| - |RUNNING_CLOSE|];
      assert body == u + RUNNING_MID + u;
      assert body[..(|body| - |RUNNING_MID|) / 2] == u;
    }
  }

  /** Parsing undoes rendering, for every title and every form. */
  lemma ParseRender(title: string, st: Status)
    ensures Parse(title, Render(title, st)) == Some(st)
  {
    var html := Render(title, st);
    assert html[|TitleDiv(title)|..] == StatusDiv(st);
    ParseStatusDivRoundTrip(st);
  }

  /** The forms are mutually exclusive: two labels for one title are equal only for equal statuses. */
  lemma RenderInjective(title: string, a: Status, b: Status)
    requires Render(title, a) == Render(title, b)
    ensures a == b
  {
    ParseRender(title, a);
    ParseRender(title, b);
  }
}

=== FILE: lifecycle.dfy ===
/**
 * The controller as the user drives it: each button runs its operation, but only
 * while the last refresh left that button interactive. Under that gate the
 * controller keeps `Consistent`, and every consistent state refreshes to a row of
 * the three-row enablement table.
 */
module Lifecycle {
  import opened Wrappers
  import Label
  import Ports
  import opened Space

  datatype Button = InstallButton | UninstallButton | LaunchButton | TerminateButton

  /** The outside world at the moment of one click. */
  datatype Env = Env(requirementsExist: bool, removedAll: bool, worker: WorkerEnv)

  datatype Click = Click(button: Button, env: Env)

  predicate Interactive(v: View, b: Button) {
    match b
    case InstallButton => v.install
    case UninstallButton => v.uninstall
    case LaunchButton => v.launch
    case TerminateButton => v.terminate
  }

  /** The operation each button is wired to. */
  function Press(c: Config, s: State, b: Button, env: Env): Completion<State> {
    match b
    case InstallButton => Done(Install(c, s, env.requirementsExist).state)
    case UninstallButton => Done(Uninstall(c, s, env.removedAll).state)
    case LaunchButton => Run(s, WorkerStart(s, env.worker))
    case TerminateButton => Done(Terminate(s))
  }

  /** A click reaches its operation only if the current refresh succeeds and shows the button interactive. */
  predicate Dispatched(c: Config, s: State, b: Button) {
    Refresh(c, s).Ok? && Interactive(Refresh(c, s).value, b)
  }

  function Step(c: Config, s: State, k: Click): Completion<State> {
    if Dispatched(c, s, k.button) then Press(c, s, k.button, k.env) else Done(s)
  }

  /** A sequence of clicks; once an operation hangs the UI thread is blocked for good. */
  function Session(c: Config, s: State, ks: seq<Click>): Completion<State>
    decreases |ks|
  {
    if ks == [] then Done(s)
    else
      match Step(c, s, ks[0])
      case Hangs => Hangs
      case Done(s') => Session(c, s', ks[1..])
  }

  /** What a gradio launch returns: a tuple whose element 1 is the local url. */
  predicate GradioMetas(h: Handle) {
    h.TupleHandle? && |h.items| > 1 && h.items[1].Str?
  }

  ghost predicate LaunchesGradio(w: WorkerEnv) {
    forall host, port :: GradioMetas(w.launch(host, port))
  }

  /** A launcher that either returns gradio's tuple or returns `None`. */
  ghost predicate LaunchesGradioOrFails(w: WorkerEnv) {
    forall host, port :: GradioMetas(w.launch(host, port)) || w.launch(host, port) == NoHandle
  }

  /** A handle exists exactly while running, running implies installed, and the handle carries a url. */
  predicate Consistent(s: State) {
    && (s.isRunning <==> s.metas != NoHandle)
    && (s.isRunning ==> s.installed)
    && (s.metas != NoHandle ==> GradioMetas(s.metas))
  }

  /** The enablement table, row by row, as an independent reference for `Refresh`. */
  function TableView(c: Config, s: State): View
    requires Consistent(s)
  {
    if !s.installed then
      View(Label.Render(c.title, Label.NotInstalled), true, false, false, false)
    else if !s.isRunning then
      View(Label.Render(c.title, Label.ReadyToLaunch), false, true, true, false)
    else
      View(Label.Render(c.title, Label.Running(s.metas.items[1].s)), false, false, false, true)
  }

  /** Every consistent state refreshes to its row of the table. */
  lemma RefreshFollowsTable(c: Config, s: State)
    requires Consistent(s)
    ensures Refresh(c, s) == Ok(TableView(c, s))
  {
  }

  /** In a consistent state exactly one of Install, Launch and Terminate is offered. */
  lemma ExactlyOneOffered(c: Config, s: State)
    requires Consistent(s)
    ensures Refresh(c, s).Ok?
    ensures var v := Refresh(c, s).value;
      (if v.install then 1 else 0) + (if v.launch then 1 else 0) + (if v.terminate then 1 else 0) == 1
  {
    RefreshFollowsTable(c, s);
  }

  /** One dispatched click keeps the controller consistent. */
  lemma StepPreservesConsistent(c: Config, s: State, k: Click)
    requires Consistent(s)
    requires LaunchesGradioOrFails(k.env.worker)
    ensures Step(c, s, k).Done? ==> Consistent(Step(c, s, k).value)
  {
  }

  /** Every completed session from a consistent state ends consistent. */
  lemma {:induction false} SessionPreservesConsistent(c: Config, s: State, ks: seq<Click>)
    requires Consistent(s)
    requires forall i :: 0 <= i < |ks| ==> LaunchesGradioOrFails(ks[i].env.worker)
    ensures Session(c, s, ks).Done? ==> Consistent(Session(c, s, ks).value)
    decreases |ks|
  {
    if ks != [] {
      StepPreservesConsistent(c, s, ks[0]);
      match Step(c, s, ks[0])
      case Hangs =>
      case Done(s') =>
        assert forall i :: 0 <= i < |ks[1..]| ==> LaunchesGradioOrFails(ks[1..][i].env.worker) by {
          forall i | 0 <= i < |ks[1..]|
            ensures LaunchesGradioOrFails(ks[1..][i].env.worker)
          {
            assert ks[1..][i] == ks[i + 1];
          }
        }
        SessionPreservesConsistent(c, s', ks[1..]);
    }
  }

  /** Launching a space whose mirror does not exist blocks forever: the worker dies in `os.chdir`. */
  lemma LaunchWithoutMirrorHangs(c: Config, s: State, env: Env)
    requires !s.installed && s.metas == NoHandle
    ensures Press(c, s, LaunchButton, env) == Hangs
  {
  }

  /** No click removes the worker handle without also stopping the space: the handle goes only through
      Terminate, whose worker clears it after seeing `is_running` false. */
  lemma HandleLeavesOnlyWithStop(c: Config, s: State, k: Click)
    requires s.metas != NoHandle
    requires Step(c, s, k).Done? && Step(c, s, k).value.metas == NoHandle
    ensures !Step(c, s, k).value.isRunning
    ensures k.button == TerminateButton
  {
  }

  /** The mirror directory removed from outside while the space runs; only disk state changes. */
  function MirrorDeletedOutside(s: State): State {
    s.(installed := false)
  }

  /** Deleting the mirror by hand under a running space strands it: refresh offers no button at all,
      so every click is ignored and the server can no longer be terminated from the UI. */
  lemma DeletedMirrorStrandsRunningSpace(c: Config, s: State, k: Click)
    requires Consistent(s) && s.isRunning
    ensures var t := MirrorDeletedOutside(s);
      && Refresh(c, t).Ok?
      && !Refresh(c, t).value.install && !Refresh(c, t).value.uninstall
      && !Refresh(c, t).value.launch && !Refresh(c, t).value.terminate
      && Step(c, t, k) == Done(t)
    ensures !Consistent(MirrorDeletedOutside(s))
  {
  }

  /** A session runs its first click, then the rest from where that click left the controller. */
  lemma SessionCons(c: Config, s: State, k: Click, ks: seq<Click>, s': State)
    requires Step(c, s, k) == Done(s')
    ensures Session(c, s, [k] + ks) == Session(c, s', ks)
  {
    assert ([k] + ks)[0] == k && ([k] + ks)[1..] == ks;
  }

  /** Install on a space that has never been installed makes it installed and idle. */
  lemma InstallClick(c: Config, env: Env)
    ensures Step(c, Initial(false), Click(InstallButton, env)) == Done(Initial(true))
  {
  }

  /** Launch on an installed idle space whose entry file loads and for which a port is free: it runs. */
  lemma LaunchClick(c: Config, env: Env)
    requires env.worker.entryLoads && LaunchesGradio(env.worker)
    requires Ports.FreePortFrom(env.worker.canBind, Ports.HostOrDefault(env.worker.serverName),
                                Ports.PortOrDefault(env.worker.preferredPort))
    ensures var r := Step(c, Initial(true), Click(LaunchButton, env));
      r.Done? && r.value.isRunning && r.value.installed && Consistent(r.value)
  {
    var o := WorkerStart(Initial(true), env.worker);
    assert o.Served?;
    assert GradioMetas(env.worker.launch(env.worker.serverName, o.port));
  }

  /** Terminate on a running space leaves it installed and idle. */
  lemma TerminateClick(c: Config, s: State, env: Env)
    requires Consistent(s) && s.isRunning
    ensures Step(c, s, Click(TerminateButton, env)) == Done(Initial(true))
  {
  }

  /** Uninstall on an idle space whose files can all be deleted makes it not installed. */
  lemma UninstallClick(c: Config, env: Env)
    requires env.removedAll
    ensures Step(c, Initial(true), Click(UninstallButton, env)) == Done(Initial(false))
  {
  }

  /** Install, launch, terminate, uninstall: the controller runs through the table and is back where it began. */
  lemma FullCycle(c: Config, install: Env, launch: Env, terminate: Env, uninstall: Env)
    requires launch.worker.entryLoads && LaunchesGradio(launch.worker)
    requires Ports.FreePortFrom(launch.worker.canBind, Ports.HostOrDefault(launch.worker.serverName),
                                Ports.PortOrDefault(launch.worker.preferredPort))
    requires uninstall.removedAll
    ensures var up := Session(c, Initial(false), [Click(InstallButton, install), Click(LaunchButton, launch)]);
      up.Done? && up.value.isRunning && Consistent(up.value) && Refresh(c, up.value) == Ok(TableView(c, up.value))
    ensures Session(c, Initial(false), [Click(InstallButton, install), Click(LaunchButton, launch),
                                        Click(TerminateButton, terminate), Click(UninstallButton, uninstall)])
         == Done(Initial(false))
  {
    var k1, k2, k3, k4 := Click(InstallButton, install), Click(LaunchButton, launch),
                          Click(TerminateButton, terminate), Click(UninstallButton, uninstall);
    InstallClick(c, install);
    LaunchClick(c, launch);
    var running := Step(c, Initial(true), k2).value;
    RefreshFollowsTable(c, running);
    TerminateClick(c, running, terminate);
    UninstallClick(c, uninstall);
    SessionCons(c, Initial(false), k1, [k2], Initial(true));
    SessionCons(c, Initial(true), k2, [], running);
    assert [k1, k2] == [k1] + [k2];
    SessionCons(c, Initial(true), k4, [], Initial(false));
    SessionCons(c, running, k3, [k4], Initial(true));
    SessionCons(c, Initial(true), k2, [k3, k4], running);
    SessionCons(c, Initial(false), k1, [k2, k3, k4], Initial(true));
    assert [k1, k2, k3, k4] == [k1] + [k2, k3, k4];
    assert [k2, k3, k4] == [k2] + [k3, k4];
    assert [k3, k4] == [k3] + [k4];
  }
}

=== FILE: ports.dfy ===
/** Free-port discovery (`find_free_port`): an ascending probe over an abstract bind test. */
module Ports {
  import opened Wrappers
  import opened Py

  const DEFAULT_PORT := 7860
  const DEFAULT_HOST := "127.0.0.1"
  /** The socket layer refuses any port above this one with an `OverflowError`. */
  const MAX_PORT := 65535

  function HostOrDefault(serverName: Option<string>): string {
    if serverName.Some? then serverName.value else DEFAULT_HOST
  }

  function PortOrDefault(startPort: Option<int>): int {
    if startPort.Some? then startPort.value else DEFAULT_PORT
  }

  /** `port` is the first port at or above `start` that `host` can bind. */
  ghost predicate IsFirstFree(canBind: (string, int) -> bool, host: string, start: int, port: int) {
    && start <= port
    && canBind(host, port)
    && forall p :: start <= p < port ==> !canBind(host, p)
  }

  /** Some port between `start` and the largest valid port binds. */
  ghost predicate FreePortFrom(canBind: (string, int) -> bool, host: string, start: int) {
    exists p :: 0 <= start <= p <= MAX_PORT && canBind(host, p)
  }

  /** The probe loop from `port` on: a successful bind returns, a failed one moves to the next port. */
  function Probe(canBind: (string, int) -> bool, host: string, port: int): (r: Result<int, Error>)
    ensures r.Ok? ==> IsFirstFree(canBind, host, port, r.value) && r.value <= MAX_PORT
    ensures r.Err? ==> r.error == OverflowError
    ensures r.Err? ==> port < 0 || forall p :: port <= p <= MAX_PORT ==> !canBind(host, p)
    decreases MAX_PORT + 1 - port
  {
    if port < 0 || port > MAX_PORT then Err(OverflowError)
    else if canBind(host, port) then Ok(port)
    else Probe(canBind, host, port + 1)
  }

  /** `find_free_port(server_name, start_port)`. */
  function FindFreePort(canBind: (string, int) -> bool, serverName: Option<string>, startPort: Option<int>)
    : (r: Result<int, Error>)
    ensures r.Ok? ==> IsFirstFree(canBind, HostOrDefault(serverName), PortOrDefault(startPort), r.value)
    ensures r.Ok? && serverName.None? ==> canBind(DEFAULT_HOST, r.value)
    ensures r.Ok? && startPort.None? ==> DEFAULT_PORT <= r.value
    ensures r.Err? <==> !FreePortFrom(canBind, HostOrDefault(serverName), PortOrDefault(startPort))
  {
    Probe(canBind, HostOrDefault(serverName), PortOrDefault(startPort))
  }

  /** The first free port is unique: the search answers a question, not just picks a port. */
  lemma FirstFreeUnique(canBind: (string, int) -> bool, host: string, start: int, a: int, b: int)
    requires IsFirstFree(canBind, host, start, a)
    requires IsFirstFree(canBind, host, start, b)
    ensures a == b
  {
  }
}

=== FILE: registry.dfy ===
/**
 * Startup wiring (`main_entry`): keep the enabled extensions flagged as spaces,
 * group them by their declared tag in order of each tag's first appearance, and
 * build one controller configuration per kept extension, group by group.
 */
module Registry {
  import opened Wrappers
  import opened Py
  import Space

  const TAG_KEY := "tag"

  /** An extension as the registry lists it; `spaceMeta` is its space metadata dict. */
  datatype Extension = Extension(path: string, enabled: bool, isForgeSpace: bool, spaceMeta: map<string, string>)

  /** One entry of the tag dict: a tag and the extensions appended under it. */
  datatype TagGroup = TagGroup(tag: string, members: seq<Extension>)

  predicate IsSpace(ex: Extension) {
    ex.enabled && ex.isForgeSpace
  }

  /** The tag a kept extension is grouped under; `None` for an extension that is not kept or has no tag. */
  function SpaceTag(ex: Extension): Option<string> {
    if IsSpace(ex) && TAG_KEY in ex.spaceMeta then Some(ex.spaceMeta[TAG_KEY]) else None
  }

  /** Every kept extension declares a tag (otherwise the lookup raises `KeyError`). */
  predicate AllTagged(exs: seq<Extension>) {
    forall i :: 0 <= i < |exs| && IsSpace(exs[i]) ==> TAG_KEY in exs[i].spaceMeta
  }

  /** The kept extensions, in input order. */
  function Kept(exs: seq<Extension>): seq<Extension> {
    if exs == [] then []
    else Kept(exs[..|exs| - 1]) + (if IsSpace(exs[|exs| - 1]) then [exs[|exs| - 1]] else [])
  }

  /** The kept extensions tagged `t`, in input order. */
  function WithTag(exs: seq<Extension>, t: string): seq<Extension> {
    if exs == [] then []
    else WithTag(exs[..|exs| - 1], t) + (if SpaceTag(exs[|exs| - 1]) == Some(t) then [exs[|exs| - 1]] else [])
  }

  /** The distinct tags of the kept extensions, in order of first appearance. */
  function Tags(exs: seq<Extension>): seq<string> {
    if exs == [] then []
    else
      var ts := Tags(exs[..|exs| - 1]);
      var t := SpaceTag(exs[|exs| - 1]);
      if t.Some? && t.value !in ts then ts + [t.value] else ts
  }

  /** The reference grouping: one group per tag, in first-appearance order, holding that tag's extensions in input order. */
  function Grouping(exs: seq<Extension>): seq<TagGroup> {
    var ts := Tags(exs);
    seq(|ts|, k requires 0 <= k < |ts| => TagGroup(ts[k], WithTag(exs, ts[k])))
  }

  /** The extensions of all groups, group after group: the order controllers are created in. */
  function Flatten(gs: seq<TagGroup>): seq<Extension> {
    if gs == [] then [] else gs[0].members + Flatten(gs[1..])
  }

  /** Where tag `t` sits in the dict: its index, or the length when it is not there yet. */
  function IndexOfTag(gs: seq<TagGroup>, t: string): (k: nat)
    ensures k <= |gs|
    ensures k < |gs| ==> gs[k].tag == t
    ensures forall j :: 0 <= j < k ==> gs[j].tag != t
  {
    if gs == [] then 0
    else if gs[0].tag == t then 0
    else 1 + IndexOfTag(gs[1..], t)
  }

  /** One loop iteration for a kept extension: create the tag's list if it is new, then append. */
  function AddToGroup(gs: seq<TagGroup>, t: string, ex: Extension): seq<TagGroup> {
    var k := IndexOfTag(gs, t);
    var gs' := if k == |gs| then gs + [TagGroup(t, [])] else gs;
    gs'[k := gs'[k].(members := gs'[k].members + [ex])]
  }

  /** The grouping loop of `main_entry`. */
  method GroupByTag(exs: seq<Extension>) returns (r: Result<seq<TagGroup>, Error>)
    ensures r.Err? <==> !AllTagged(exs)
    ensures r.Err? ==> r.error == KeyError(TAG_KEY)
    ensures r.Ok? ==> r.value == Grouping(exs)
  {
    var groups: seq<TagGroup> := [];
    var i := 0;
    while i < |exs|
      invariant 0 <= i <= |exs|
      invariant AllTagged(exs[..i])
      invariant groups == Grouping(exs[..i])
    {
      var ex := exs[i];
      assert exs[..i + 1] == exs[..i] + [ex];
      if IsSpace(ex) {
        if TAG_KEY !in ex.spaceMeta {
          return Err(KeyError(TAG_KEY));
        }
        GroupingSnoc(exs[..i], ex);
        groups := AddToGroup(groups, ex.spaceMeta[TAG_KEY], ex);
      } else {
        GroupingSnoc(exs[..i], ex);
      }
      i := i + 1;
    }
    assert exs[..i] == exs;
    return Ok(groups);
  }

  /** The keyword arguments `ForgeSpace(root_path=..., **space_meta)` receives, as a configuration. */
  function ConfigOf(ex: Extension): (r: Result<Space.Config, Error>)
    ensures r.Ok? <==> "title" in ex.spaceMeta && "root_path" !in ex.spaceMeta && "self" !in ex.spaceMeta
    ensures r.Ok? ==> r.value.rootPath == ex.path && r.value.title == ex.spaceMeta["title"]
    ensures r.Ok? ==> (r.value.repoId.Some? <==> "repo_id" in ex.spaceMeta)
    ensures r.Ok? && "repo_id" in ex.spaceMeta ==> r.value.repoId == Some(ex.spaceMeta["repo_id"])
    ensures r.Ok? ==> (r.value.revision.Some? <==> "revision" in ex.spaceMeta)
    ensures r.Ok? && "revision" in ex.spaceMeta ==> r.value.revision == Some(ex.spaceMeta["revision"])
    ensures r.Ok? && "repo_type" in ex.spaceMeta ==> r.value.repoType == ex.spaceMeta["repo_type"]
    ensures r.Ok? && "repo_type" !in ex.spaceMeta ==> r.value.repoType == Space.DEFAULT_REPO_TYPE
  {
    var meta := ex.spaceMeta;
    if "root_path" in meta || "self" in meta then Err(TypeError)
    else if "title" !in meta then Err(TypeError)
    else
      Ok(Space.Config(
        ex.path,
        meta["title"],
        Get(meta, "repo_id"),
        if "repo_type" in meta then meta["repo_type"] else Space.DEFAULT_REPO_TYPE,
        Get(meta, "revision")))
  }

  /** Construct the controllers one after another; the first failing constructor call ends the loop. */
  function ConfigsOf(exs: seq<Extension>): (r: Result<seq<Space.Config>, Error>)
    ensures r.Ok? ==> |r.value| == |exs|
    ensures r.Ok? ==> forall i :: 0 <= i < |exs| ==> ConfigOf(exs[i]) == Ok(r.value[i])
    ensures r.Err? <==> exists i :: 0 <= i < |exs| && ConfigOf(exs[i]).Err?
  {
    if exs == [] then Ok([])
    else
      match ConfigOf(exs[0])
      case Err(e) => Err(e)
      case Ok(first) =>
        match ConfigsOf(exs[1..])
        case Err(e) =>
          assert exists i :: 0 <= i < |exs[1..]| && ConfigOf(exs[1..][i]).Err?;
          var i :| 0 <= i < |exs[1..]| && ConfigOf(exs[1..][i]).Err?;
          assert exs[1..][i] == exs[i + 1];
          Err(e)
        case Ok(rest) =>
          assert forall i :: 0 < i < |exs| ==> exs[i] == exs[1..][i - 1];
          Ok([first] + rest)
  }

  /** `main_entry`: group the kept extensions, then build one controller per extension, group by group. */
  method MainEntry(exs: seq<Extension>) returns (r: Result<seq<Space.Config>, Error>)
    ensures !AllTagged(exs) ==> r == Err(KeyError(TAG_KEY))
    ensures AllTagged(exs) ==> r == ConfigsOf(Flatten(Grouping(exs)))
    ensures r.Ok? ==> |r.value| == |Kept(exs)|
  {
    var grouped := GroupByTag(exs);
    if grouped.Err? {
      return Err(grouped.error);
    }
    GroupingPermutesKept(exs);
    assert |multiset(Flatten(grouped.value))| == |multiset(Kept(exs))|;
    r := ConfigsOf(Flatten(grouped.value));
  }

  // ----- properties of the reference grouping -----

  lemma {:induction false} KeptSnoc(xs: seq<Extension>, x: Extension)
    ensures Kept(xs + [x]) == Kept(xs) + (if IsSpace(x) then [x] else [])
    ensures forall t :: WithTag(xs + [x], t) == WithTag(xs, t) + (if SpaceTag(x) == Some(t) then [x] else [])
  {
    assert (xs + [x])[..|xs + [x]| - 1] == xs;
  }

  /** The tags are pairwise distinct: each tag gets one group. */
  lemma {:induction false} TagsDistinct(exs: seq<Extension>)
    ensures forall i, j :: 0 <= i < j < |Tags(exs)| ==> Tags(exs)[i] != Tags(exs)[j]
  {
    if exs != [] {
      TagsDistinct(exs[..|exs| - 1]);
    }
  }

  /** A tag has extensions exactly when it has a group. */
  lemma {:induction false} WithTagEmptyIff(exs: seq<Extension>, t: string)
    ensures WithTag(exs, t) == [] <==> t !in Tags(exs)
  {
    if exs != [] {
      WithTagEmptyIff(exs[..|exs| - 1], t);
    }
  }

  /** Every extension listed under a tag is kept and declares that tag. */
  lemma {:induction false} WithTagCarriesTag(exs: seq<Extension>, t: string)
    ensures forall m :: m in WithTag(exs, t) ==> IsSpace(m) && SpaceTag(m) == Some(t)
  {
    if exs != [] {
      WithTagCarriesTag(exs[..|exs| - 1], t);
    }
  }

  /** One loop iteration on the grouping of a prefix gives the grouping of the longer prefix. */
  lemma GroupingSnoc(xs: seq<Extension>, x: Extension)
    requires IsSpace(x) ==> TAG_KEY in x.spaceMeta
    ensures Grouping(xs + [x]) == if IsSpace(x) then AddToGroup(Grouping(xs), x.spaceMeta[TAG_KEY], x) else Grouping(xs)
  {
    var ys := xs + [x];
    KeptSnoc(xs, x);
    assert ys[..|ys| - 1] == xs;
    if !IsSpace(x) {
      assert SpaceTag(x) == None;
      assert Tags(ys) == Tags(xs);
      assert forall k :: 0 <= k < |Tags(xs)| ==> Grouping(ys)[k] == Grouping(xs)[k];
    } else if x.spaceMeta[TAG_KEY] in Tags(xs) {
      GroupingSnocKnownTag(xs, x);
    } else {
      GroupingSnocNewTag(xs, x);
    }
  }

  lemma GroupingSnocKnownTag(xs: seq<Extension>, x: Extension)
    requires IsSpace(x) && TAG_KEY in x.spaceMeta && x.spaceMeta[TAG_KEY] in Tags(xs)
    ensures Grouping(xs + [x]) == AddToGroup(Grouping(xs), x.spaceMeta[TAG_KEY], x)
  {
    var ys := xs + [x];
    KeptSnoc(xs, x);
    assert ys[..|ys| - 1] == xs;
    var g, ts, t := Grouping(xs), Tags(xs), x.spaceMeta[TAG_KEY];
    assert SpaceTag(x) == Some(t);
    assert Tags(ys) == ts;
    TagsDistinct(xs);
    var m :| 0 <= m < |ts| && ts[m] == t;
    var k := IndexOfTag(g, t);
    assert g[m].tag == t;
    assert k == m;
    var added := AddToGroup(g, t, x);
    assert added == g[m := TagGroup(t, WithTag(xs, t) + [x])];
    forall j | 0 <= j < |ts|
      ensures Grouping(ys)[j] == added[j]
    {
      if j != m {
        assert ts[j] != t;
      }
    }
  }

  lemma GroupingSnocNewTag(xs: seq<Extension>, x: Extension)
    requires IsSpace(x) && TAG_KEY in x.spaceMeta && x.spaceMeta[TAG_KEY] !in Tags(xs)
    ensures Grouping(xs + [x]) == AddToGroup(Grouping(xs), x.spaceMeta[TAG_KEY], x)
  {
    var ys := xs + [x];
    KeptSnoc(xs, x);
    assert ys[..|ys| - 1] == xs;
    var g, ts, t := Grouping(xs), Tags(xs), x.spaceMeta[TAG_KEY];
    assert SpaceTag(x) == Some(t);
    assert Tags(ys) == ts + [t];
    WithTagEmptyIff(xs, t);
    var k := IndexOfTag(g, t);
    assert k == |g|;
    var created := g + [TagGroup(t, [])];
    assert created[k].members + [x] == [x];
    var added := AddToGroup(g, t, x);
    assert added == g + [TagGroup(t, [x])];
    assert WithTag(ys, t) == [x];
    forall j | 0 <= j < |ts|
      ensures Grouping(ys)[j] == added[j]
    {
      assert ts[j] != t;
    }
  }

  lemma {:induction false} FlattenSnoc(gs: seq<TagGroup>, g: TagGroup)
    ensures Flatten(gs + [g]) == Flatten(gs) + g.members
  {
    if gs == [] {
      assert [g][1..] == [];
    } else {
      assert (gs + [g])[1..] == gs[1..] + [g];
      FlattenSnoc(gs[1..], g);
    }
  }

  lemma {:induction false} FlattenAppendMember(gs: seq<TagGroup>, k: nat, x: Extension)
    requires k < |gs|
    ensures multiset(Flatten(gs[k := gs[k].(members := gs[k].members + [x])])) == multiset(Flatten(gs)) + multiset{x}
  {
    var gs' := gs[k := gs[k].(members := gs[k].members + [x])];
    if k == 0 {
      assert gs'[1..] == gs[1..];
    } else {
      assert gs'[1..] == gs[1..][k - 1 := gs[1..][k - 1].(members := gs[1..][k - 1].members + [x])];
      FlattenAppendMember(gs[1..], k - 1, x);
    }
  }

  /** Every kept extension appears in exactly one group, as often as it occurs in the input: the groups permute the kept list. */
  lemma {:induction false} GroupingPermutesKept(exs: seq<Extension>)
    requires AllTagged(exs)
    ensures multiset(Flatten(Grouping(exs))) == multiset(Kept(exs))
  {
    if exs != [] {
      var xs, x := exs[..|exs| - 1], exs[|exs| - 1];
      assert exs == xs + [x];
      assert AllTagged(xs) by {
        forall i | 0 <= i < |xs| && IsSpace(xs[i])
          ensures TAG_KEY in xs[i].spaceMeta
        {
          assert xs[i] == exs[i];
        }
      }
      assert IsSpace(x) ==> TAG_KEY in x.spaceMeta by {
        assert x == exs[|exs| - 1];
      }
      GroupingPermutesKept(xs);
      GroupingSnoc(xs, x);
      KeptSnoc(xs, x);
      if IsSpace(x) {
        var g := Grouping(xs);
        var t := x.spaceMeta[TAG_KEY];
        var k := IndexOfTag(g, t);
        if k == |g| {
          var g' := g + [TagGroup(t, [])];
          FlattenSnoc(g, TagGroup(t, []));
          FlattenAppendMember(g', k, x);
        } else {
          FlattenAppendMember(g, k, x);
        }
      }
    }
  }

  /** Each group is non-empty, and all its members are kept extensions with the group's tag. */
  lemma GroupsAreTagged(exs: seq<Extension>)
    ensures forall k :: 0 <= k < |Grouping(exs)| ==> Grouping(exs)[k].members != []
    ensures forall k, m :: 0 <= k < |Grouping(exs)| && m in Grouping(exs)[k].members ==>
              IsSpace(m) && SpaceTag(m) == Some(Grouping(exs)[k].tag)
    ensures forall i, j :: 0 <= i < j < |Grouping(exs)| ==> Grouping(exs)[i].tag != Grouping(exs)[j].tag
  {
    TagsDistinct(exs);
    forall k | 0 <= k < |Grouping(exs)|
      ensures Grouping(exs)[k].members != []
      ensures forall m :: m in Grouping(exs)[k].members ==> IsSpace(m) && SpaceTag(m) == Some(Grouping(exs)[k].tag)
    {
      var t := Tags(exs)[k];
      WithTagEmptyIff(exs, t);
      WithTagCarriesTag(exs, t);
    }
  }
}

=== FILE: space.dfy ===
/**
 * One space controller (`ForgeSpace`): its configuration, the abstract state the
 * lifecycle acts on, the five-way refresh, and the install / uninstall / run /
 * terminate transitions together with the two halves of the background worker.
 * The filesystem is reduced to the `installed` flag, foreign calls to `Effect`s,
 * and the busy-waits to `Completion`: an operation either completes with its
 * postcondition holding or waits forever.
 */
module Space {
  import opened Wrappers
  import opened Py
  import Label
  import Ports

  const MIRROR_DIR := "huggingface_space_mirror"
  const REQUIREMENTS_FILE := "requirements.txt"
  const DEFAULT_REPO_TYPE := "space"

  /** The identity of a space: what the constructor is given. */
  datatype Config = Config(
    rootPath: string,
    title: string,
    repoId: Option<string>,
    repoType: string,
    revision: Option<string>)

  /** What `gradio_metas` holds: nothing, a tuple (what a launch returns), or some other object. */
  datatype Handle = NoHandle | TupleHandle(items: seq<Value>) | ObjectHandle

  /** `installed` is whether the mirror directory exists; the other two are the object's fields. */
  datatype State = State(installed: bool, isRunning: bool, metas: Handle)

  /** What `refresh_gradio` returns: the label and the interactive flag of the four buttons. */
  datatype View = View(markup: string, install: bool, uninstall: bool, launch: bool, terminate: bool)

  /** The calls into the filesystem, the download client and the package installer. */
  datatype Effect =
    | MakeDirs(path: string)
    | Download(repoId: string, repoType: string, revision: Option<string>, localDir: string, forceDownload: bool)
    | PipInstall(requirements: string)
    | RemoveTree(path: string)

  datatype Outcome = Outcome(state: State, effects: seq<Effect>)

  /** Whether a blocking operation returns (with its result) or its busy-wait never ends. */
  datatype Completion<T> = Done(value: T) | Hangs

  /** POSIX `os.path.join(dir, name)` for a relative `name`. */
  function JoinPath(dir: string, name: string): string {
    if dir == [] || dir[|dir| - 1] == '/' then dir + name else dir + "/" + name
  }

  function MirrorPath(c: Config): string {
    JoinPath(c.rootPath, MIRROR_DIR)
  }

  function RequirementsPath(c: Config): string {
    JoinPath(c.rootPath, REQUIREMENTS_FILE)
  }

  /** A freshly constructed controller: not running and without a worker handle. */
  function Initial(installed: bool): State {
    State(installed, false, NoHandle)
  }

  /** The label the constructor shows before the first refresh: always the not-installed form. */
  function InitialLabel(c: Config): (html: string)
    ensures Label.Parse(c.title, html) == Some(Label.NotInstalled)
  {
    Label.BuildHtml(c.title, false, NoneValue)
  }

  /** The url handed to the label: element 1 of a tuple handle, otherwise `None`. */
  function LabelUrl(metas: Handle): (r: Result<Value, Error>)
    ensures r.Err? <==> metas.TupleHandle? && |metas.items| < 2
    ensures r.Ok? && r.value.Str? ==> metas.TupleHandle? && metas.items[1] == r.value
    ensures !metas.TupleHandle? ==> r == Ok(NoneValue)
    ensures metas.TupleHandle? && |metas.items| > 1 ==> r == Ok(metas.items[1])
  {
    match metas
    case TupleHandle(items) => if |items| > 1 then Ok(items[1]) else Err(IndexError)
    case _ => Ok(NoneValue)
  }

  /** `refresh_gradio`. */
  function Refresh(c: Config, s: State): (r: Result<View, Error>)
    ensures r.Err? <==> s.metas.TupleHandle? && |s.metas.items| < 2
    ensures r.Ok? ==> !(r.value.install && r.value.uninstall)
    ensures r.Ok? ==> !(r.value.launch && r.value.terminate)
    ensures r.Ok? ==> r.value.uninstall == r.value.launch
    ensures r.Ok? ==> Label.Parse(c.title, r.value.markup).Some?
    ensures r.Ok? ==> (Label.Parse(c.title, r.value.markup) == Some(Label.NotInstalled) <==> !s.installed)
    ensures r.Ok? && Label.Parse(c.title, r.value.markup).value.Running? ==>
              s.metas.TupleHandle? && s.metas.items[1] == Str(Label.Parse(c.title, r.value.markup).value.url)
  {
    match LabelUrl(s.metas)
    case Err(e) => Err(e)
    case Ok(url) =>
      Ok(View(
        Label.BuildHtml(c.title, s.installed, url),
        !s.isRunning && !s.installed,
        !s.isRunning && s.installed,
        s.installed && !s.isRunning,
        s.installed && s.isRunning))
  }

  /** `install`: create the mirror directory, then, with a repository configured, download and install requirements. */
  function Install(c: Config, s: State, requirementsExist: bool): (r: Outcome)
    ensures r.state.installed
    ensures r.state.isRunning == s.isRunning && r.state.metas == s.metas
    ensures |r.effects| > 0 && r.effects[0] == MakeDirs(MirrorPath(c))
    ensures c.repoId.None? ==> r.effects == [MakeDirs(MirrorPath(c))]
    ensures c.repoId.Some? ==> Download(c.repoId.value, c.repoType, c.revision, MirrorPath(c), true) in r.effects
    ensures PipInstall(RequirementsPath(c)) in r.effects <==> c.repoId.Some? && requirementsExist
    ensures forall e :: e in r.effects && e.PipInstall? ==> e == PipInstall(RequirementsPath(c))
    ensures forall e :: e in r.effects ==> !e.RemoveTree?
    ensures forall i :: 0 < i < |r.effects| ==> !r.effects[i].MakeDirs?
    ensures forall i, j :: 0 <= i < j < |r.effects| ==> !(r.effects[i].Download? && r.effects[j].Download?)
    ensures forall i, j :: 0 <= i < j < |r.effects| ==> !(r.effects[i].PipInstall? && r.effects[j].Download?)
    ensures forall i, j :: 0 <= i < j < |r.effects| ==> !(r.effects[i].PipInstall? && r.effects[j].PipInstall?)
    ensures |r.effects| == if c.repoId.None? then 1 else if requirementsExist then 3 else 2
  {
    var made := [MakeDirs(MirrorPath(c))];
    var effects :=
      if c.repoId.None? then made
      else
        var fetched := made + [Download(c.repoId.value, c.repoType, c.revision, MirrorPath(c), true)];
        if requirementsExist then fetched + [PipInstall(RequirementsPath(c))] else fetched;
    Outcome(s.(installed := true), effects)
  }

  /** `uninstall`: a best-effort recursive delete; the directory is gone only if every entry could be removed. */
  function Uninstall(c: Config, s: State, removedAll: bool): (r: Outcome)
    ensures r.effects == [RemoveTree(MirrorPath(c))]
    ensures r.state.isRunning == s.isRunning && r.state.metas == s.metas
    ensures r.state.installed ==> s.installed
    ensures removedAll ==> !r.state.installed
    ensures !removedAll ==> r.state.installed == s.installed
  {
    Outcome(s.(installed := s.installed && !removedAll), [RemoveTree(MirrorPath(c))])
  }

  /** What the worker depends on outside the controller: host configuration, the bind test, the entry file, the launcher. */
  datatype WorkerEnv = WorkerEnv(
    serverName: Option<string>,
    preferredPort: Option<int>,
    canBind: (string, int) -> bool,
    entryLoads: bool,
    launch: (Option<string>, int) -> Handle)

  /** How the first half of the worker ends: serving on a port with a handle, or an exception. */
  datatype WorkerOutcome = Served(port: int, handle: Handle) | Crashed(error: Error)

  /** `gradio_worker` up to storing the launch result: enter the mirror, load the entry file, find a port, launch. */
  function WorkerStart(s: State, env: WorkerEnv): (o: WorkerOutcome)
    ensures !s.installed ==> o == Crashed(FileNotFoundError)
    ensures s.installed && !env.entryLoads ==> o == Crashed(EntryError)
    ensures o.Served? ==> s.installed && env.entryLoads
    ensures o.Served? ==> Ports.IsFirstFree(env.canBind, Ports.HostOrDefault(env.serverName),
                                            Ports.PortOrDefault(env.preferredPort), o.port)
    ensures o.Served? ==> o.handle == env.launch(env.serverName, o.port)
    ensures s.installed && env.entryLoads ==>
              (o.Served? <==> Ports.FreePortFrom(env.canBind, Ports.HostOrDefault(env.serverName),
                                                 Ports.PortOrDefault(env.preferredPort)))
  {
    if !s.installed then Crashed(FileNotFoundError)
    else if !env.entryLoads then Crashed(EntryError)
    else
      match Ports.FindFreePort(env.canBind, env.serverName, env.preferredPort)
      case Err(e) => Crashed(e)
      case Ok(port) => Served(port, env.launch(env.serverName, port))
  }

  /** The worker's tail: it keeps polling while `is_running` holds and clears the handle once it does not. */
  function WorkerStop(s: State): (r: State)
    ensures r.installed == s.installed && r.isRunning == s.isRunning
    ensures r.metas != s.metas ==> !s.isRunning && r.metas == NoHandle
    ensures !s.isRunning ==> r.metas == NoHandle
  {
    if s.isRunning then s else s.(metas := NoHandle)
  }

  /** `run`: set the flag, let the worker publish its handle, and wait for a handle to be present. */
  function Run(s: State, o: WorkerOutcome): (r: Completion<State>)
    ensures r.Done? ==> r.value.isRunning && r.value.metas != NoHandle
    ensures r.Done? ==> r.value.installed == s.installed
    ensures r.Done? && o.Served? ==> r.value.metas == o.handle
    ensures r.Done? && o.Crashed? ==> r.value.metas == s.metas
    ensures r.Hangs? <==> if o.Served? then o.handle == NoHandle else s.metas == NoHandle
  {
    var flagged := s.(isRunning := true);
    var published := if o.Served? then flagged.(metas := o.handle) else flagged;
    if published.metas == NoHandle then Hangs else Done(published)
  }

  /** `terminate`: clear the flag, let the worker observe it, and wait for the handle to be gone. */
  function Terminate(s: State): (r: State)
    ensures !r.isRunning && r.metas == NoHandle
    ensures r.installed == s.installed
  {
    WorkerStop(s.(isRunning := false))
  }

  /** Installing twice ends in the same state, and asks for the same effects, as installing once. */
  lemma InstallIdempotent(c: Config, s: State, requirementsExist: bool)
    ensures Install(c, Install(c, s, requirementsExist).state, requirementsExist).state
         == Install(c, s, requirementsExist).state
    ensures Install(c, Install(c, s, requirementsExist).state, requirementsExist).effects
         == Install(c, s, requirementsExist).effects
  {
  }

  /** The buttons agree with the label in every state, consistent or not: Install is offered only beside
      the not-installed label, and Uninstall, Launch and Terminate never are. */
  lemma FlagsAgreeWithLabel(c: Config, s: State)
    requires Refresh(c, s).Ok?
    ensures var v := Refresh(c, s).value;
      v.install ==> Label.Parse(c.title, v.markup) == Some(Label.NotInstalled)
    ensures var v := Refresh(c, s).value;
      v.uninstall || v.launch || v.terminate ==> Label.Parse(c.title, v.markup) != Some(Label.NotInstalled)
  {
  }

  /** With no worker handle the label is never the running form. */
  lemma NoHandleNeverRunning(c: Config, s: State)
    requires !s.metas.TupleHandle?
    ensures Refresh(c, s).Ok?
    ensures !Label.Parse(c.title, Refresh(c, s).value.markup).value.Running?
  {
  }
}

=== FILE: wrappers.dfy ===
/** Failure-carrying datatypes shared by the whole model. */
module Wrappers {

  /** Python's `None` or a present value. */
  datatype Option<+T> = None | Some(value: T)

  /** A value, or the exception the Python code would raise instead. */
  datatype Result<+T, +E> = Ok(value: T) | Err(error: E)

  /** Looks a key up in a dict, treating an absent key as `None` (as a defaulted keyword argument does). */
  function Get<K, V>(m: map<K, V>, k: K): (r: Option<V>)
    ensures r.Some? <==> k in m
    ensures r.Some? ==> r.value == m[k]
  {
    if k in m then Some(m[k]) else None
  }
}

/** The small part of the Python runtime the modelled code observes. */
module Py {

  /** An arbitrary Python object, as far as `isinstance(x, str)` can tell. */
  datatype Value = Str(s: string) | NoneValue | OtherValue

  /** The exceptions the modelled code can raise. */
  datatype Error =
    | KeyError(key: string)    // a missing dict key
    | TypeError                // a bad keyword-argument set in a constructor call
    | IndexError               // indexing a too-short tuple
    | OverflowError            // `socket.bind` with a port outside 0..65535
    | FileNotFoundError        // `os.chdir` into a directory that does not exist
    | EntryError               // executing the space's entry file, or reading its `demo`, failed
}
